=== FILE: README.md ===
# Smithy core: tree addressing, patch application and click dispatch

This project models the part of the Smithy renderer that ties a rendered component
tree to the live browser document. A component renders an `HtmlToken` tree. The
session keeps the handler-free ("bare") form of the last render. A click on the live
document is turned into a positional path. That path finds the clicked token in a
fresh render and fires its click handler. The component is then rendered again, diffed
against the stored bare token, and the diff is applied to the live document.

Modules:

- `Wrappers` (`wrappers.dfy`): `Option` and `Result`.
- `Tree` (`tree.dfy`): the live document as an immutable tree. A node is an element
  (tag, attribute map, ordered children) or a text node. Text nodes count as children.
  A live node's identity is its `Location`: the child indices from the document node
  down to it. So `parent_node` drops the last index and `is_same_node` compares
  locations. `NodeAt` is root-first descent and `SetAt` writes a subtree back.
- `Jsx` (`jsx.dfy`): the shapes of the component library that this core consumes.
  These are the rendered token with its optional click handler, the four diff
  operations and the ordered diff. `Mirrors` says that a live node is what a token
  renders to.
- `Dom` (`dom.dfy`), for `src/dom.rs`: `FindChildIndex`, the target-to-path walk
  `GetPathFrom`, the descents `FindNodeByPath` and `FindTokenByPath`, and patch
  application (`ApplyReplace`, `ApplyInsert`, `ApplyDelete`, `ApplyUpdateAttributes`,
  `ApplyEntry`, `ApplyDiff`).
- `Cell` (`util.rs` → `util.dfy`): the take/put-back `WithInnerValue`.
- `Smithy` (`session.dfy`), for `src/lib.rs`: the session record that replaces the three
  thread-local slots, plus `Mount` and the click dispatch `Click`.

Each source panic (`unwrap`, `panic!`) becomes an explicit failure value. A patch entry
that fails stops `ApplyDiff`. The entries before it have already changed the tree, so
the failure carries that partly patched tree. A panic inside the click closure never
reaches the put-back in `with_inner_value`, so `Click` leaves the root-element slot
empty after a failure. Every later click is then ignored.

Rendering, the bare projection, the diff algorithm, `as_inner_html`, the host's markup
parser and `get_element_by_id` are fields of `Smithy.Env`. They are not defined here,
and nothing is claimed about them.

`Click` finds the clicked token with the root-first path `Dom.RootFirstPath`. It does not
use the leaf-first order that `get_path_from` produces; see "## Findings". `GetPathFrom`
itself models the source as written.

## Model

| member | source | states |
|---|---|---|
| `Dom.FindChildIndex` | src/dom.rs:16-26 | A returned index is below the parent's child count, and the child sits at that index. No smaller index holds the child. The result is None exactly when no index holds it (the source panics there). |
| `Dom.LeafFirstPath` | src/dom.rs:28-59 | Reference meaning of the walk. It fails exactly when the target is not the root or below it: with `NoParent` exactly when the target is the document node itself (it has no parent), and with `RootNotReached` otherwise. Otherwise the path is empty for the root and its direct children. Deeper targets get one index per level below the root's direct child, with entry k equal to the target's index k levels up (leaf first). |
| `Dom.GetPathFrom` | src/dom.rs:28-59 | The walk from the target up to the mount root equals `LeafFirstPath`. That covers the root special case, the root's direct child, the target with no parent (`NoParent`) and the walk that never meets the root (`RootNotReached`). |
| `Dom.WalkUp` | src/dom.rs:50-58 | The `while let Some(parent)` loop. It can start on any ancestor of the target other than the root, as long as that ancestor is the root's direct child or lies deeper, and the indices below it are already recorded. It then finishes with the same result as `LeafFirstPath`. |
| `Dom.LeafFirstPathShallow` | src/dom.rs:45-54 | For a target at most two levels below the mount root, the leaf-first path equals the root-first path. |
| `Dom.LeafFirstPathMisroutes` | src/dom.rs:49-54 | In a concrete document, the walk for a target three levels down returns `[1, 0]`. Consumed root first, that path reaches a different node than the one clicked. The root-first path `[0, 1]` reaches the clicked node. |
| `Dom.RootFirstPath` | src/dom.rs:49-56 | The corrected resolver. For a target below the mount root, it returns the indices below the root's direct child, outermost first. It returns the empty path for the root, and the walk's own errors for targets outside the root. |
| `Tree.NodeAtAppend` | src/dom.rs:68-72 | Descending by `p + q` is descending by `p` and then by `q` from the node reached. Once a step fails, the result stays None. |
| `Dom.FindNodeByPath` | src/dom.rs:68-72 | The fold over the path (take the indexed child, or stay None) equals root-first descent `NodeAt`. It therefore returns the start node for the empty path and None for any out-of-range index or text node on the way. |
| `Dom.FindTokenByPath` | src/dom.rs:74-92 | The empty path gives the token itself. A one-index path into an element gives the child at that index. A non-empty path through a text token gives None. An index at or beyond an element's child count gives None. With `FindTokenByPathAppend` this fixes the token reached by every path. |
| `Dom.FindTokenByPathAppend` | src/dom.rs:78-91 | Token descent by `p + q` is descent by `p` and then by `q`, so there are no partial matches. |
| `Dom.MirrorsAgree` | src/dom.rs:68-92 | A live node and the token it renders resolve the same paths. The nodes they reach again mirror each other. |
| `Dom.GetNodeFromInnerHtml` | src/dom.rs:139-150 | The node is the first node the markup parses into. There is none, a panic in the source, exactly when the markup parses to nothing. |
| `Dom.ApplyReplace` | src/dom.rs:100-106 | Fails on the empty path. Otherwise it succeeds exactly when the parent has a child at the last index and the markup yields a node. The root stays an element. |
| `Dom.ReplaceEffect` | src/dom.rs:100-106 | After a Replace, the parent keeps its tag and attributes. Its children are the old ones with exactly the child at the last index replaced by the parsed node. Every position off the parent's line is unchanged. The parent and every node above it keep their tags and attributes. |
| `Dom.InsertBefore` | src/dom.rs:111-118 | The new node lands before the child at the index, or after the last child when there is none. Earlier children stay put, later ones move down by one, and the count grows by one. |
| `Dom.ApplyInsert` | src/dom.rs:107-119 | Fails on the empty path. Otherwise it succeeds exactly when the parent exists and the markup yields a node. It does not require a child at the last index. |
| `Dom.InsertEffect` | src/dom.rs:107-119 | With an element parent, the children grow by exactly the parsed node, placed at the last index or at the end. The order of the others is kept, and the parent and every node above it keep their tags and attributes. A text parent is left unchanged, because the host refuses the insertion and the error is discarded. Positions off the parent's line are unchanged. |
| `Dom.ApplyDelete` | src/dom.rs:120-125 | Fails on the empty path. Otherwise it succeeds exactly when the parent has a child at the last index. |
| `Dom.DeleteEffect` | src/dom.rs:120-125 | After a Delete, the parent keeps its tag and attributes. Exactly the child at the last index is gone and the later children move up by one. Positions off the parent's line are unchanged. The parent and every node above it keep their tags and attributes. |
| `Dom.ApplyUpdateAttributes` | src/dom.rs:126-134 | Resolves the full, unsplit path. It fails with `NodeNotFound` exactly when nothing is there. |
| `Dom.UpdateAttributesEffect` | src/dom.rs:126-134 | On an element, every key of the mapping is set. Attributes the mapping does not mention are kept (a merge, not a replacement). The tag and children are unchanged, and every node above the element keeps its tag and attributes. A text node is left as it was. |
| `Dom.ApplyEntry` | src/dom.rs:98-135 | Each operation kind succeeds under its own arm's condition. Replace and Delete need the empty path excluded and a child at the last index. Insert needs only a live parent. Replace and Insert need markup that yields a node. UpdateAttributes needs a node at the full path. A structural entry with an empty path fails with `EmptyPath`, and an attribute update fails only with `NodeNotFound`. An element root stays an element. |
| `Dom.ApplyEntryEffect` | src/dom.rs:99-135 | What an applied entry did, by kind. Replace puts the parsed node in place of the child at the last index. Insert adds it before that child or at the end, or leaves a text parent alone. Delete removes that child. UpdateAttributes merges the mapping into the element at the path, or leaves a text node alone. Positions off the edited line are unchanged, and the nodes above the edit keep their tags and attributes. |
| `Dom.ApplyDiff` | src/dom.rs:94-137 | The empty diff leaves the tree unchanged. A failure names an entry of the diff. That entry, applied to the reported partly patched tree, fails with the reported kind. |
| `Dom.ApplyDiffSingle` | src/dom.rs:98-136 | A one-entry diff does exactly what `ApplyEntry` does with that entry. Its failure is numbered 0 and carries the untouched tree. With `ApplyDiffAppend`, this makes `ApplyDiff` the left fold of `ApplyEntry` over the entries. |
| `Dom.ApplyDiffAppend` | src/dom.rs:98 | Entries apply in list order, each against the tree the previous ones left. Applying `d1 + d2` is applying `d1` and then `d2`, with a failure in `d2` renumbered. |
| `Dom.ApplyDiffFailurePrefix` | src/dom.rs:98-136 | When entry i fails, the entries before it all applied and produced exactly the reported partial tree. |
| `Cell.WithInnerValue` | src/util.rs:9-18 | The callback runs exactly when the cell holds a value, and at most once. It gets that value, and during the call the cell reads as empty. Afterwards the cell holds the value the callback left. An empty cell stays empty. A panicking callback leaves the cell empty. |
| `Cell.ReentrantRunIsInert` | src/util.rs:11 | A nested run on the same cell from inside the callback finds it empty and runs nothing. |
| `Smithy.Mount` | src/lib.rs:117-130 | With no element for the id, the world is unchanged, so a fresh session stays empty. Otherwise the session stores the element and the component, and a bare token in step with the component's render. The root element is a live element below the document node. |
| `Smithy.MountWritesMarkup` | src/lib.rs:45-52 | Mounting makes the parsed markup of the initial render the element's children. It keeps the element's tag and attributes and changes nothing outside the element. Every node above the element keeps its tag and attributes. |
| `Smithy.HandlerAt` | src/lib.rs:80-93 | There is a handler exactly when the path resolves to an element token that has an `on_click`. The handler is that token's `on_click`. |
| `Smithy.FiredHandler` | src/lib.rs:75-93 | The handler the model's click fires, through the corrected root-first path. Without a target, a mounted root or a component, none fires. A click on the root itself fires the handler of the whole render. A click below the root fires the handler of the token at the indices below the root's direct child, outermost first. A target outside the root fires nothing. |
| `Smithy.FiredHandlerAsWritten` | src/lib.rs:75-93 | The dispatch as written. Without a target, a mounted root or a component, no handler fires. When the leaf-first walk yields a path, the handler fired is exactly `HandlerAt` of the render at that path, consumed root first; when the walk fails, none fires. |
| `Smithy.AsWrittenAgreesWhenShallow` | src/lib.rs:75-80 | For targets at most two levels below the mount root, the dispatch as written and the model's dispatch fire the same handler. |
| `Smithy.ClickAsWrittenMisroutes` | src/lib.rs:75-80 | In a concrete session, a click on `b` fires the handler of `i` under the dispatch as written. The model's `Click` fires the handler of `b`. |
| `Smithy.PatchRootElement` | src/lib.rs:107-109 | Applying a diff to the root element keeps it an element and changes nothing outside it. The root receives the patched subtree, or the partly patched one together with the failure. Every node above the root keeps its tag and attributes. |
| `Smithy.Click` | src/lib.rs:66-112 | Without a target or a mounted root, nothing happens. Without a fired handler, the component, stored token and document are unchanged. When the path resolves but no handler fires, the click changes nothing and reports no failure. When a handler fires, the component becomes the handler's result and the stored token becomes the bare form of its render. The diff between that token and the old one is applied to the root element, and only when an old token existed. A path failure is reported. Success keeps the root element slot and failure empties it. The document outside the root never changes. Both session invariants are preserved. |
| `Smithy.ClickRoutesToClickedElement` | src/lib.rs:75-83 | Suppose the root's child mirrors the current render. Then a click on a live node inside it reaches the token that node renders, and the handler fired is that token's handler. |
| `Smithy.ClickKeepsLineAboveRoot` | src/lib.rs:107-109 | A click keeps the tag and attributes of every node above the mount root. |
| `Smithy.ClickRootSlotIsCellRun` | src/lib.rs:74-110 | After a click, the root element slot holds what `Cell.WithInnerValue` leaves when its callback panics exactly on a click failure. |
| `Smithy.ClickAfterFailureIsInert` | src/lib.rs:74-110 | After a click that failed part-way, any later click leaves the world unchanged. |

## Left out

- `src/js_fns.rs`: foreign bindings to JavaScript only (`alert`, `log`, `initialize`); it has no logic.
- `get_document`, `set_onclick`, `Closure::forget` and the `thread_local!` storage. The session is the explicit `Smithy.Session` record and the document is part of `Smithy.World`.
- The `transmute` casts between node, element and event types. The root element is an element by the `RootLive` invariant, and the event is reduced to its target's location.
- `render`, `as_bare_token`, `get_diff_with` and `as_inner_html` belong to the component library, which is not part of this model. They are `Env` fields with no assumed properties. In particular, nothing is claimed about diffing equal tokens.
- Rendering is taken to be a function of the component state. `Component::render` may mutate its receiver in the source.
- Markup parsing (`set_inner_html`, and the template element in `get_node_from_inner_html`) is the opaque `Env.parse` / `parse` function from markup to the nodes it yields.
- `get_element_by_id` is the opaque `Env.getElementById`. It is assumed to answer only with elements of the document.
- `convert_node_reference_to_owned` in `find_node_by_path` re-fetches the start node through its parent and panics when there is none. The mount root always has a parent: `Smithy.LookupYieldsElement` and `Smithy.RootLive` require its location to be non-empty, that is, below the document node. So the model descends from the node directly.
- The `as u32` casts of child indices are lossless on the 32-bit WebAssembly target, so indices are unbounded `nat`.
- Dom.ApplyUpdateAttributes: every attribute name is accepted and stored as given. The host's refusal of a malformed attribute name, whose error the source discards, is not modelled. The host's lower-casing of attribute names on HTML elements in an HTML document is not modelled either, so `Dom.UpdateAttributesEffect` sets each key verbatim.
- Smithy.Click: dispatches through the corrected root-first path `Dom.RootFirstPath`, not the leaf-first path that `src/lib.rs:75` takes from `get_path_from` and `src/lib.rs:80` hands unchanged to `find_token_by_path`. The dispatch as written is `Smithy.FiredHandlerAsWritten`. The two agree for targets at most two levels below the mount root (`Smithy.AsWrittenAgreesWhenShallow`) and differ deeper (`Smithy.ClickAsWrittenMisroutes`); see "## Findings".
- Smithy.Click: a panicking click handler is not modelled. The handler is a total function from the event and the state to the next state.
- Event kinds other than click. They are not wired up in the source.
- `with_inner_value` in `src/util.rs` returns nothing, yet `src/lib.rs:77` and `:98` use its result. The model takes an empty component slot to produce no diff. It takes an empty token slot to produce no diff, but the new token is still stored. The `store` method used by `src/lib.rs` is not among the modelled files; it is taken to fill the slot.
- Three choices follow the code: text nodes count as children, a failing patch leaves the earlier entries applied, and re-entrant access to a slot sees it empty instead of raising an error.

## Findings

| source | as written | input that shows it | evidently intended | confidence | as-written member | corrected member |
|---|---|---|---|---|---|---|
| src/dom.rs:49-56 | `get_path_from` records the target's own index first and pushes each ancestor's index after it (leaf first). `src/lib.rs:80` hands that path to `find_token_by_path`, which consumes the first index at the top (`src/dom.rs:78`). | Root `div` > `ul` > [`li`[text, `b`], `li`[`i`]]. A click on `b` yields `[1, 0]`. From `ul` that path reaches `i`, so the handler of the wrong element (or none) fires. | The root-first path `[0, 1]`, which reaches `b`. | not executed; high: the two orders agree only for paths of at most one index | `Smithy.ClickAsWrittenMisroutes` | `Dom.RootFirstPath` |

=== FILE: dom.dfy ===
/**
 * Tree addressing and patch application against the live document.
 *
 * Two path conventions meet here. The target-to-path walk records indices from the
 * clicked node upwards (leaf first) and stops below the mount root's direct child;
 * the path-to-node descents consume indices from the outermost one (root first).
 */
module Dom {
  import opened Wrappers
  import opened Tree
  import opened Jsx

  // ---------------------------------------------------------------------------------
  // Target to path
  // ---------------------------------------------------------------------------------

  /** Why the walk from a target up to the mount root produced no path. */
  datatype PathError =
    | NoParent        // the target itself has no parent node
    | RootNotReached  // the walk ran out of parents before meeting the mount root

  /**
   * Linear scan of the children of `parent` for the node `child`; the first matching
   * index, or None where the source panics because the child is not there.
   */
  method FindChildIndex(doc: Node, parent: Location, child: Location) returns (r: Option<nat>)
    ensures r.Some? ==> r.value < ChildCount(doc, parent) && IsChild(child, parent, r.value)
    ensures r.Some? ==> forall j :: 0 <= j < r.value ==> !IsChild(child, parent, j)
    ensures r.None? <==> forall j :: 0 <= j < ChildCount(doc, parent) ==> !IsChild(child, parent, j)
  {
    var count := ChildCount(doc, parent);
    for i := 0 to count
      invariant forall j :: 0 <= j < i ==> !IsChild(child, parent, j)
    {
      if parent + [i] == child {
        assert IsChild(child, parent, i);
        return Some(i);
      }
    }
    return None;
  }

  /**
   * What the walk from `target` up to `root` yields: nothing for the root itself and
   * for the root's direct children; otherwise the indices below the root's direct child,
   * innermost first. A target outside the root's subtree is an error.
   */
  function LeafFirstPath(root: Location, target: Location): (r: Result<Path, PathError>)
    ensures r.Failure? <==> !IsPrefix(root, target)
    ensures r.Failure? ==> (r.error == NoParent <==> |target| == 0)
    ensures r.Success? ==> |r.value| == if target == root then 0 else |target| - |root| - 1
    ensures r.Success? ==> forall k :: 0 <= k < |r.value| ==> r.value[k] == target[|target| - 1 - k]
  {
    if target == root then Success([])
    else if IsPrefix(root, target) then Success(Reverse(target[|root| + 1..]))
    else if |target| == 0 then Failure(NoParent)
    else Failure(RootNotReached)
  }

  /** The walk from the event target to the mount root, recording child indices as it goes. */
  method GetPathFrom(doc: Node, root: Location, target: Location) returns (r: Result<Path, PathError>)
    requires ValidLocation(doc, target)
    ensures r == LeafFirstPath(root, target)
  {
    if target == root {
      return Success([]);
    }
    if |target| == 0 {
      return Failure(NoParent);
    }
    var depth := |target| - 1;
    var current := target[..depth];
    if current == root {
      ReachedRoot(root, target, depth + 1);
      return Success([]);
    }
    LiveStep(doc, target, depth);
    assert target[..depth + 1] == target;
    var first := FindChildIndex(doc, current, target);
    assert target[depth..] == [target[depth]];
    r := WalkUp(doc, root, target, depth, [first.value]);
  }

  /**
   * The `while let Some(parent)` loop of the walk, standing on the ancestor
   * `target[..depth]` with the indices below it already recorded in `path`.
   */
  method WalkUp(doc: Node, root: Location, target: Location, depth: nat, path: Path) returns (r: Result<Path, PathError>)
    requires ValidLocation(doc, target) && depth < |target|
    requires target[..depth] != root
    requires IsPrefix(root, target) ==> |root| < depth
    requires path == Reverse(target[depth..])
    ensures r == LeafFirstPath(root, target)
  {
    var depth, path := depth, path;
    var current := target[..depth];
    while depth > 0
      invariant depth < |target| && current == target[..depth]
      invariant current != root
      invariant IsPrefix(root, target) ==> |root| < depth
      invariant path == Reverse(target[depth..])
      decreases depth
    {
      var parent := target[..depth - 1];
      if parent == root {
        ReachedRoot(root, target, depth);
        return Success(path);
      }
      LiveStep(doc, target, depth - 1);
      var index := FindChildIndex(doc, parent, current);
      StepUp(target, depth);
      path := path + [index.value];
      depth := depth - 1;
      current := parent;
    }
    return Failure(RootNotReached);
  }

  /** One step of the walk: the index of the node at `depth` goes to the end of the path. */
  lemma StepUp(target: Location, depth: nat)
    requires 0 < depth < |target|
    ensures Reverse(target[depth - 1..]) == Reverse(target[depth..]) + [target[depth - 1]]
  {
    assert target[depth - 1..][1..] == target[depth..];
  }

  /** The walk stops when the node's parent is the root: the path covers what lies below. */
  lemma ReachedRoot(root: Location, target: Location, depth: nat)
    requires 0 < depth <= |target| && root == target[..depth - 1]
    ensures IsPrefix(root, target) && |root| == depth - 1
  {
  }

  /** The ancestor of a live node at `depth` is live and finds its next ancestor at `target[depth]`. */
  lemma LiveStep(doc: Node, target: Location, depth: nat)
    requires ValidLocation(doc, target) && depth < |target|
    ensures ValidLocation(doc, target[..depth])
    ensures target[depth] < ChildCount(doc, target[..depth])
    ensures IsChild(target[..depth + 1], target[..depth], target[depth])
  {
    assert target[..depth + 1] == target[..depth] + [target[depth]];
    NodeAtPrefix(doc, target[..depth + 1], target);
    ChildIndexOfLive(doc, target[..depth], target[depth]);
  }

  /** A live node's last index is one its parent's scan can find. */
  lemma ChildIndexOfLive(doc: Node, parent: Location, k: nat)
    requires ValidLocation(doc, parent + [k])
    ensures k < ChildCount(doc, parent)
    ensures IsChild(parent + [k], parent, k)
  {
    NodeAtChild(doc, parent, k);
  }

  /**
   * The root-first path the descent below the mount root's direct child expects: the
   * walk's result put in the order the descents consume it.
   */
  function RootFirstPath(root: Location, target: Location): (r: Result<Path, PathError>)
    ensures target == root ==> r == Success([])
    ensures IsPrefix(root, target) && target != root ==> r == Success(target[|root| + 1..])
    ensures !IsPrefix(root, target) ==> r == LeafFirstPath(root, target) && r.Failure?
  {
    match LeafFirstPath(root, target)
    case Failure(e) => Failure(e)
    case Success(p) =>
      // p is the reversal of the target's last |p| indices
      ReverseReverse(target[|target| - |p|..]);
      Success(Reverse(p))
  }

  /** For a target at most two levels below the mount root the two orders coincide. */
  lemma LeafFirstPathShallow(root: Location, i: nat, p: Path)
    requires |p| <= 1
    ensures LeafFirstPath(root, root + [i] + p) == Success(p)
  {
    var target := root + [i] + p;
    assert target[..|root|] == root;
    assert target[|root| + 1..] == p;
    assert Reverse(p) == p;
  }

  /**
   * Three levels below the mount root the walk's path, consumed root first, leads to
   * a different node than the one clicked.
   */
  lemma LeafFirstPathMisroutes()
    ensures var top := Element("ul", map[], [
                         Element("li", map[], [Text("a"), Element("b", map[], [])]),
                         Element("li", map[], [Element("i", map[], [])])]);
            var doc := Element("body", map[], [Element("div", map[], [top])]);
            && LeafFirstPath([0], [0, 0, 0, 1]) == Success([1, 0])
            && NodeAt(doc, [0, 0, 0, 1]) == Some(Element("b", map[], []))
            && NodeAt(top, [1, 0]) == Some(Element("i", map[], []))
            && RootFirstPath([0], [0, 0, 0, 1]) == Success([0, 1])
            && NodeAt(top, [0, 1]) == NodeAt(doc, [0, 0, 0, 1])
  {
    assert IsPrefix([0], [0, 0, 0, 1]);
    assert [0, 0, 0, 1][2..] == [0, 1];
    assert Reverse([0, 1]) == [1, 0];
  }

  // ---------------------------------------------------------------------------------
  // Path to node
  // ---------------------------------------------------------------------------------

  /** Fold over the path, taking the indexed child at each step; None once any step fails. */
  method FindNodeByPath(root: Node, path: Path) returns (r: Option<Node>)
    ensures r == NodeAt(root, path)
  {
    r := Some(root);
    for i := 0 to |path|
      invariant r == NodeAt(root, path[..i])
    {
      NodeAtChild(root, path[..i], path[i]);
      assert path[..i + 1] == path[..i] + [path[i]];
      r := match r
        case None => None
        case Some(n) => ChildAt(n, path[i]);
    }
    assert path[..|path|] == path;
  }

  /** Root-first descent through a rendered token; a text token has no children to descend into. */
  function FindTokenByPath<S>(token: HtmlToken<S>, path: Path): (r: Option<HtmlToken<S>>)
    ensures |path| == 0 ==> r == Some(token)
    ensures |path| > 0 && token.TextNode? ==> r.None?
    ensures |path| > 0 && token.DomElement? && path[0] >= |token.children| ==> r.None?
    ensures |path| == 1 && token.DomElement? && path[0] < |token.children| ==> r == Some(token.children[path[0]])
    decreases |path|
  {
    if |path| == 0 then Some(token)
    else match token
      case DomElement(_, _, _, children) =>
        if path[0] < |children| then FindTokenByPath(children[path[0]], path[1..]) else None
      case TextNode(_) => None
  }

  /** Descending by `p + q` is descending by `p`, then by `q`: no partial matches. */
  lemma {:induction false} FindTokenByPathAppend<S>(token: HtmlToken<S>, p: Path, q: Path)
    ensures FindTokenByPath(token, p + q) ==
            match FindTokenByPath(token, p) case None => None case Some(t) => FindTokenByPath(t, q)
    decreases |p|
  {
    if |p| == 0 {
      assert p + q == q;
    } else {
      assert (p + q)[0] == p[0];
      assert (p + q)[1..] == p[1..] + q;
      if token.DomElement? && p[0] < |token.children| {
        FindTokenByPathAppend(token.children[p[0]], p[1..], q);
      }
    }
  }

  /** The two descents agree on a live node and the token it renders. */
  lemma {:induction false} MirrorsAgree<S>(n: Node, token: HtmlToken<S>, p: Path)
    requires Mirrors(n, token)
    ensures NodeAt(n, p).Some? <==> FindTokenByPath(token, p).Some?
    ensures NodeAt(n, p).Some? ==> Mirrors(NodeAt(n, p).value, FindTokenByPath(token, p).value)
    decreases |p|
  {
    if |p| > 0 && n.Element? && p[0] < |n.children| {
      MirrorsAgree(n.children[p[0]], token.children[p[0]], p[1..]);
    }
  }

  // ---------------------------------------------------------------------------------
  // Patch application
  // ---------------------------------------------------------------------------------

  /** Why one patch entry could not be applied (each is a panic in the source). */
  datatype PatchErrorKind =
    | EmptyPath       // Replace, Insert or Delete with no index to split off
    | ParentNotFound  // the path before the last index resolves to nothing
    | ChildNotFound   // Replace or Delete: the parent has no child at the last index
    | NodeNotFound    // UpdateAttributes: the full path resolves to nothing
    | EmptyMarkup     // the markup parses to no node at all

  /** Entry `index` failed with `kind` against `partial`, the tree the earlier entries left. */
  datatype PatchFailure = PatchFailure(index: nat, kind: PatchErrorKind, partial: Node)

  /** The first node of the parsed markup; `parse` stands for the host's markup parser. */
  function GetNodeFromInnerHtml(html: string, parse: string -> seq<Node>): (r: Option<Node>)
    ensures r.None? <==> |parse(html)| == 0
    ensures r.Some? ==> r.value == parse(html)[0]
  {
    var fragment := parse(html);
    if |fragment| == 0 then None else Some(fragment[0])
  }

  function ParentPath(path: Path): Path
    requires |path| > 0
  {
    path[..|path| - 1]
  }

  function LastIndex(path: Path): nat
    requires |path| > 0
  {
    path[|path| - 1]
  }

  /** `kids'` is `kids` with the child at `k` replaced by `x`. */
  predicate ReplacedAt(kids: seq<Node>, kids': seq<Node>, k: nat, x: Node) {
    && k < |kids| && |kids'| == |kids| && kids'[k] == x
    && forall j :: 0 <= j < |kids| && j != k ==> kids'[j] == kids[j]
  }

  /** `kids'` is `kids` without the child at `k`, the later children moved up by one. */
  predicate RemovedAt(kids: seq<Node>, kids': seq<Node>, k: nat) {
    && k < |kids| && |kids'| == |kids| - 1
    && (forall j :: 0 <= j < k ==> kids'[j] == kids[j])
    && (forall j :: k <= j < |kids'| ==> kids'[j] == kids[j + 1])
  }

  /** `kids'` is `kids` with `x` placed at `k`, the children from `k` on moved down by one. */
  predicate InsertedAt(kids: seq<Node>, kids': seq<Node>, k: nat, x: Node) {
    && k <= |kids| && |kids'| == |kids| + 1 && kids'[k] == x
    && (forall j :: 0 <= j < k ==> kids'[j] == kids[j])
    && (forall j :: k < j < |kids'| ==> kids'[j] == kids[j - 1])
  }

  /** `insert_before`: before the child at `k`, or at the end when there is none. */
  function InsertBefore(kids: seq<Node>, k: nat, x: Node): (r: seq<Node>)
    ensures InsertedAt(kids, r, if k < |kids| then k else |kids|, x)
  {
    if k < |kids| then kids[..k] + [x] + kids[k..] else kids + [x]
  }

  function RemoveAt(kids: seq<Node>, k: nat): (r: seq<Node>)
    requires k < |kids|
    ensures RemovedAt(kids, r, k)
  {
    kids[..k] + kids[k + 1..]
  }

  function ApplyReplace(root: Node, path: Path, html: string, parse: string -> seq<Node>): (r: Result<Node, PatchErrorKind>)
    ensures |path| == 0 ==> r == Failure(EmptyPath)
    ensures |path| > 0 ==>
      (r.Success? <==> LastIndex(path) < ChildCount(root, ParentPath(path)) && |parse(html)| > 0)
    ensures root.Element? && r.Success? ==> r.value.Element?
  {
    if |path| == 0 then Failure(EmptyPath)
    else
      var prefix, last := ParentPath(path), LastIndex(path);
      match NodeAt(root, prefix)
      case None => Failure(ParentNotFound)
      case Some(parent) =>
        if ChildAt(parent, last).None? then Failure(ChildNotFound)
        else match GetNodeFromInnerHtml(html, parse)
          case None => Failure(EmptyMarkup)
          case Some(x) => Success(SetAt(root, prefix, parent.(children := parent.children[last := x])))
  }

  function ApplyInsert(root: Node, path: Path, html: string, parse: string -> seq<Node>): (r: Result<Node, PatchErrorKind>)
    ensures |path| == 0 ==> r == Failure(EmptyPath)
    ensures |path| > 0 ==>
      (r.Success? <==> ValidLocation(root, ParentPath(path)) && |parse(html)| > 0)
    ensures root.Element? && r.Success? ==> r.value.Element?
  {
    if |path| == 0 then Failure(EmptyPath)
    else
      var prefix, last := ParentPath(path), LastIndex(path);
      match NodeAt(root, prefix)
      case None => Failure(ParentNotFound)
      case Some(parent) =>
        match GetNodeFromInnerHtml(html, parse)
        case None => Failure(EmptyMarkup)
        case Some(x) =>
          // a text node refuses children; the host's error is discarded
          if parent.Text? then Success(root)
          else Success(SetAt(root, prefix, parent.(children := InsertBefore(parent.children, last, x))))
  }

  function ApplyDelete(root: Node, path: Path): (r: Result<Node, PatchErrorKind>)
    ensures |path| == 0 ==> r == Failure(EmptyPath)
    ensures |path| > 0 ==> (r.Success? <==> LastIndex(path) < ChildCount(root, ParentPath(path)))
    ensures root.Element? && r.Success? ==> r.value.Element?
  {
    if |path| == 0 then Failure(EmptyPath)
    else
      var prefix, last := ParentPath(path), LastIndex(path);
      match NodeAt(root, prefix)
      case None => Failure(ParentNotFound)
      case Some(parent) =>
        if ChildAt(parent, last).None? then Failure(ChildNotFound)
        else Success(SetAt(root, prefix, parent.(children := RemoveAt(parent.children, last))))
  }

  function ApplyUpdateAttributes(root: Node, path: Path, newAttributes: map<string, string>): (r: Result<Node, PatchErrorKind>)
    ensures r.Success? <==> ValidLocation(root, path)
    ensures r.Failure? ==> r.error == NodeNotFound
    ensures root.Element? && r.Success? ==> r.value.Element?
  {
    match NodeAt(root, path)
    case None => Failure(NodeNotFound)
    // setting an attribute on a text node is refused by the host; the error is discarded
    case Some(Text(_)) => Success(root)
    case Some(Element(tag, attrs, kids)) => Success(SetAt(root, path, Element(tag, attrs + newAttributes, kids)))
  }

  function ApplyEntry(root: Node, entry: DiffEntry, parse: string -> seq<Node>): (r: Result<Node, PatchErrorKind>)
    ensures entry.op.Replace? ==>
              (r.Success? <==> |entry.path| > 0 && LastIndex(entry.path) < ChildCount(root, ParentPath(entry.path))
                               && |parse(entry.op.newInnerHtml)| > 0)
    ensures entry.op.Insert? ==>
              (r.Success? <==> |entry.path| > 0 && ValidLocation(root, ParentPath(entry.path))
                               && |parse(entry.op.newInnerHtml)| > 0)
    ensures entry.op.Delete? ==>
              (r.Success? <==> |entry.path| > 0 && LastIndex(entry.path) < ChildCount(root, ParentPath(entry.path)))
    ensures entry.op.UpdateAttributes? ==> (r.Success? <==> ValidLocation(root, entry.path))
    ensures r.Failure? && |entry.path| == 0 && !entry.op.UpdateAttributes? ==> r.error == EmptyPath
    ensures r.Failure? && entry.op.UpdateAttributes? ==> r.error == NodeNotFound
    ensures root.Element? && r.Success? ==> r.value.Element?
  {
    match entry.op
    case Replace(html) => ApplyReplace(root, entry.path, html, parse)
    case Insert(html) => ApplyInsert(root, entry.path, html, parse)
    case Delete => ApplyDelete(root, entry.path)
    case UpdateAttributes(m) => ApplyUpdateAttributes(root, entry.path, m)
  }

  /** Renumbers a failure of a suffix of the patch as a failure of the whole. */
  function Shift(r: Result<Node, PatchFailure>, offset: nat): Result<Node, PatchFailure> {
    match r
    case Success(t) => Success(t)
    case Failure(f) => Failure(f.(index := f.index + offset))
  }

  /**
   * Applies the entries in order, each resolved against the tree the previous ones left.
   * The first entry that cannot be applied stops the application; the entries before
   * it have already changed the tree.
   */
  function ApplyDiff(root: Node, diff: Diff, parse: string -> seq<Node>): (r: Result<Node, PatchFailure>)
    ensures |diff| == 0 ==> r == Success(root)
    ensures r.Failure? ==> r.error.index < |diff|
    ensures r.Failure? ==> ApplyEntry(r.error.partial, diff[r.error.index], parse) == Failure(r.error.kind)
    ensures root.Element? ==> (r.Success? ==> r.value.Element?) && (r.Failure? ==> r.error.partial.Element?)
    decreases |diff|
  {
    if |diff| == 0 then Success(root)
    else match ApplyEntry(root, diff[0], parse)
      case Failure(kind) => Failure(PatchFailure(0, kind, root))
      case Success(next) => Shift(ApplyDiff(next, diff[1..], parse), 1)
  }

  // ---------------------------------------------------------------------------------
  // What each patch operation does
  // ---------------------------------------------------------------------------------

  /** Giving the element at `prefix` new children puts them there and changes nothing off its line. */
  lemma EditChildren(root: Node, prefix: Path, kids': seq<Node>)
    requires NodeAt(root, prefix).Some? && NodeAt(root, prefix).value.Element?
    ensures var edited := NodeAt(root, prefix).value.(children := kids');
            && NodeAt(SetAt(root, prefix, edited), prefix) == Some(edited)
            && (forall q :: Disjoint(q, prefix) ==> NodeAt(SetAt(root, prefix, edited), q) == NodeAt(root, q))
            && LineKept(root, SetAt(root, prefix, edited), prefix)
  {
    var edited := NodeAt(root, prefix).value.(children := kids');
    SetAtEffect(root, prefix, edited);
    forall q | IsPrefix(q, prefix)
      ensures SameElement(NodeAt(root, q), NodeAt(SetAt(root, prefix, edited), q))
    {
      if |q| == |prefix| {
        assert q == prefix;
      }
    }
  }

  /** Replace swaps exactly the child at the last index for the parsed node. */
  lemma ReplaceEffect(root: Node, path: Path, html: string, parse: string -> seq<Node>)
    requires ApplyReplace(root, path, html, parse).Success?
    ensures |path| > 0 && |parse(html)| > 0
    ensures var r := ApplyReplace(root, path, html, parse).value;
            var before, after := NodeAt(root, ParentPath(path)), NodeAt(r, ParentPath(path));
            && SameElement(before, after)
            && ReplacedAt(before.value.children, after.value.children, LastIndex(path), parse(html)[0])
    ensures forall q :: Disjoint(q, ParentPath(path)) ==>
              NodeAt(ApplyReplace(root, path, html, parse).value, q) == NodeAt(root, q)
    ensures LineKept(root, ApplyReplace(root, path, html, parse).value, ParentPath(path))
  {
    var parent := NodeAt(root, ParentPath(path)).value;
    EditChildren(root, ParentPath(path), parent.children[LastIndex(path) := parse(html)[0]]);
  }

  /**
   * Insert places the parsed node before the child at the last index, or after the last
   * child when there is none; a text parent is left as it was.
   */
  lemma InsertEffect(root: Node, path: Path, html: string, parse: string -> seq<Node>)
    requires ApplyInsert(root, path, html, parse).Success?
    ensures |path| > 0 && |parse(html)| > 0 && ValidLocation(root, ParentPath(path))
    ensures NodeAt(root, ParentPath(path)).value.Text? ==> ApplyInsert(root, path, html, parse).value == root
    ensures NodeAt(root, ParentPath(path)).value.Element? ==>
            var r := ApplyInsert(root, path, html, parse).value;
            var before, after := NodeAt(root, ParentPath(path)), NodeAt(r, ParentPath(path));
            var kids := before.value.children;
            && SameElement(before, after)
            && InsertedAt(kids, after.value.children, if LastIndex(path) < |kids| then LastIndex(path) else |kids|, parse(html)[0])
            && LineKept(root, r, ParentPath(path))
    ensures forall q :: Disjoint(q, ParentPath(path)) ==>
              NodeAt(ApplyInsert(root, path, html, parse).value, q) == NodeAt(root, q)
  {
    var parent := NodeAt(root, ParentPath(path)).value;
    if parent.Element? {
      EditChildren(root, ParentPath(path), InsertBefore(parent.children, LastIndex(path), parse(html)[0]));
    }
  }

  /** Delete removes exactly the child at the last index; the later children move up by one. */
  lemma DeleteEffect(root: Node, path: Path)
    requires ApplyDelete(root, path).Success?
    ensures |path| > 0
    ensures var r := ApplyDelete(root, path).value;
            var before, after := NodeAt(root, ParentPath(path)), NodeAt(r, ParentPath(path));
            && SameElement(before, after)
            && RemovedAt(before.value.children, after.value.children, LastIndex(path))
    ensures forall q :: Disjoint(q, ParentPath(path)) ==> NodeAt(ApplyDelete(root, path).value, q) == NodeAt(root, q)
    ensures LineKept(root, ApplyDelete(root, path).value, ParentPath(path))
  {
    var parent := NodeAt(root, ParentPath(path)).value;
    EditChildren(root, ParentPath(path), RemoveAt(parent.children, LastIndex(path)));
  }

  /** `merged` holds every entry of `update` and, for the other keys, the entries of `attrs`. */
  predicate MergedAttributes(attrs: map<string, string>, update: map<string, string>, merged: map<string, string>) {
    && merged.Keys == attrs.Keys + update.Keys
    && (forall k :: k in update ==> merged[k] == update[k])
    && (forall k :: k in attrs && k !in update ==> merged[k] == attrs[k])
  }

  /**
   * UpdateAttributes sets every key of the mapping on the element at the full path and
   * keeps the attributes the mapping does not mention; a text node is left as it was.
   */
  lemma UpdateAttributesEffect(root: Node, path: Path, update: map<string, string>)
    requires ValidLocation(root, path)
    ensures NodeAt(root, path).value.Text? ==> ApplyUpdateAttributes(root, path, update).value == root
    ensures NodeAt(root, path).value.Element? ==>
            var before := NodeAt(root, path).value;
            var after := NodeAt(ApplyUpdateAttributes(root, path, update).value, path);
            && after.Some? && after.value.Element?
            && after.value.tag == before.tag && after.value.children == before.children
            && MergedAttributes(before.attrs, update, after.value.attrs)
            && (|path| > 0 ==> LineKept(root, ApplyUpdateAttributes(root, path, update).value, ParentPath(path)))
    ensures forall q :: Disjoint(q, path) ==> NodeAt(ApplyUpdateAttributes(root, path, update).value, q) == NodeAt(root, q)
  {
    var target := NodeAt(root, path).value;
    if target.Element? {
      var r := SetAt(root, path, Element(target.tag, target.attrs + update, target.children));
      SetAtEffect(root, path, Element(target.tag, target.attrs + update, target.children));
      if |path| > 0 {
        forall q | IsPrefix(q, ParentPath(path))
          ensures SameElement(NodeAt(root, q), NodeAt(r, q))
        {
          assert IsPrefix(q, path) && |q| < |path|;
        }
      }
    }
  }

  /**
   * What one applied entry did, by operation: the child edit at the parent of the
   * entry's path (or the attribute merge at the path itself), the frame off that line,
   * and the nodes above the edit kept.
   */
  lemma ApplyEntryEffect(root: Node, entry: DiffEntry, parse: string -> seq<Node>)
    requires ApplyEntry(root, entry, parse).Success?
    ensures var r, path := ApplyEntry(root, entry, parse).value, entry.path;
            entry.op.Replace? ==>
              var html := entry.op.newInnerHtml;
              var before, after := NodeAt(root, ParentPath(path)), NodeAt(r, ParentPath(path));
              && SameElement(before, after)
              && ReplacedAt(before.value.children, after.value.children, LastIndex(path), parse(html)[0])
              && LineKept(root, r, ParentPath(path))
              && forall q :: Disjoint(q, ParentPath(path)) ==> NodeAt(r, q) == NodeAt(root, q)
    ensures var r, path := ApplyEntry(root, entry, parse).value, entry.path;
            entry.op.Insert? ==>
              var html := entry.op.newInnerHtml;
              var before, after := NodeAt(root, ParentPath(path)), NodeAt(r, ParentPath(path));
              && (before.value.Text? ==> r == root)
              && (before.value.Element? ==>
                    var kids := before.value.children;
                    && SameElement(before, after)
                    && InsertedAt(kids, after.value.children, if LastIndex(path) < |kids| then LastIndex(path) else |kids|, parse(html)[0])
                    && LineKept(root, r, ParentPath(path)))
              && forall q :: Disjoint(q, ParentPath(path)) ==> NodeAt(r, q) == NodeAt(root, q)
    ensures var r, path := ApplyEntry(root, entry, parse).value, entry.path;
            entry.op.Delete? ==>
              var before, after := NodeAt(root, ParentPath(path)), NodeAt(r, ParentPath(path));
              && SameElement(before, after)
              && RemovedAt(before.value.children, after.value.children, LastIndex(path))
              && LineKept(root, r, ParentPath(path))
              && forall q :: Disjoint(q, ParentPath(path)) ==> NodeAt(r, q) == NodeAt(root, q)
    ensures var r, path := ApplyEntry(root, entry, parse).value, entry.path;
            entry.op.UpdateAttributes? ==>
              var before, after := NodeAt(root, path).value, NodeAt(r, path);
              && (before.Text? ==> r == root)
              && (before.Element? ==>
                    && after.Some? && after.value.Element?
                    && after.value.tag == before.tag && after.value.children == before.children
                    && MergedAttributes(before.attrs, entry.op.newAttributes, after.value.attrs))
              && forall q :: Disjoint(q, path) ==> NodeAt(r, q) == NodeAt(root, q)
  {
    match entry.op
    case Replace(html) => ReplaceEffect(root, entry.path, html, parse);
    case Insert(html) => InsertEffect(root, entry.path, html, parse);
    case Delete => DeleteEffect(root, entry.path);
    case UpdateAttributes(m) => UpdateAttributesEffect(root, entry.path, m);
  }

  /** Applying `d1 + d2` is applying `d1`, then `d2` to the tree `d1` left. */
  lemma {:induction false} ApplyDiffAppend(root: Node, d1: Diff, d2: Diff, parse: string -> seq<Node>)
    ensures var first := ApplyDiff(root, d1, parse);
            ApplyDiff(root, d1 + d2, parse) ==
              if first.Failure? then first else Shift(ApplyDiff(first.value, d2, parse), |d1|)
    decreases |d1|
  {
    if |d1| == 0 {
      assert d1 + d2 == d2;
      assert Shift(ApplyDiff(root, d2, parse), 0) == ApplyDiff(root, d2, parse);
    } else {
      assert (d1 + d2)[0] == d1[0];
      assert (d1 + d2)[1..] == d1[1..] + d2;
      match ApplyEntry(root, d1[0], parse)
      case Failure(_) =>
      case Success(next) =>
        ApplyDiffAppend(next, d1[1..], d2, parse);
    }
  }

  /** A one-entry diff is that entry, its failure numbered 0 and reported against the untouched tree. */
  lemma ApplyDiffSingle(root: Node, e: DiffEntry, parse: string -> seq<Node>)
    ensures var step := ApplyEntry(root, e, parse);
            ApplyDiff(root, [e], parse) ==
              if step.Success? then Success(step.value) else Failure(PatchFailure(0, step.error, root))
  {
    assert [e][0] == e && [e][1..] == [];
  }

  /** When entry `i` fails, the entries before it all applied and produced the reported tree. */
  lemma {:induction false} ApplyDiffFailurePrefix(root: Node, diff: Diff, parse: string -> seq<Node>)
    requires ApplyDiff(root, diff, parse).Failure?
    ensures ApplyDiff(root, diff[..ApplyDiff(root, diff, parse).error.index], parse)
            == Success(ApplyDiff(root, diff, parse).error.partial)
    decreases |diff|
  {
    var f := ApplyDiff(root, diff, parse).error;
    match ApplyEntry(root, diff[0], parse)
    case Failure(_) =>
      assert diff[..0] == [];
    case Success(next) =>
      ApplyDiffFailurePrefix(next, diff[1..], parse);
      assert diff[..f.index][0] == diff[0];
      assert diff[..f.index][1..] == diff[1..][..f.index - 1];
  }
}

=== FILE: jsx.dfy ===
/**
 * The shapes this core consumes from the component library: the rendered token tree
 * with its click handlers, and the diff it emits. Rendering, reduction to the bare
 * (handler-free) token and the diff algorithm itself are not part of this model; they
 * enter the session model as parameters.
 */
module Jsx {
  import opened Wrappers
  import opened Tree

  /** A click as the core sees it: the live node it was dispatched to, if any. */
  datatype ClickEvent = ClickEvent(target: Option<Location>)

  /**
   * A rendered token. A click handler closes over the component's state `S`; firing it
   * is modelled as a function from the event and the current state to the next state.
   */
  datatype HtmlToken<!S> =
    | DomElement(tagName: string, attributes: map<string, string>,
                 onClick: Option<(ClickEvent, S) -> S>, children: seq<HtmlToken<S>>)
    | TextNode(text: string)

  /** One patch operation; markup payloads are parsed into live nodes when applied. */
  datatype DiffOperation =
    | Replace(newInnerHtml: string)
    | Insert(newInnerHtml: string)
    | Delete
    | UpdateAttributes(newAttributes: map<string, string>)

  datatype DiffEntry = DiffEntry(path: Path, op: DiffOperation)

  /** An ordered patch: entries are applied first to last. */
  type Diff = seq<DiffEntry>

  /**
   * The live node `n` is what the token `t` renders to: the same kind, tag, attributes
   * and text, and children that mirror each other pairwise by index.
   */
  predicate Mirrors<S>(n: Node, t: HtmlToken<S>)
    decreases n
  {
    match (n, t)
    case (Element(tag, attrs, kids), DomElement(tag', attrs', _, kids')) =>
      && tag == tag' && attrs == attrs' && |kids| == |kids'|
      && forall i :: 0 <= i < |kids| ==> Mirrors(kids[i], kids'[i])
    case (Text(s), TextNode(s')) => s == s'
    case _ => false
  }
}

=== FILE: session.dfy ===
/**
 * The mounted session: mounting a component into an element, and the click dispatch
 * installed on that element (resolve the path, re-render, fire the handler, re-render,
 * diff against the stored bare token, store, patch).
 *
 * The three thread-local slots become the fields of `Session`; the live document is part
 * of the `World` the operations transform. Rendering, the bare projection, the diff and
 * the host's markup parsing and element lookup are supplied by `Env`.
 */
module Smithy {
  import opened Wrappers
  import opened Tree
  import opened Jsx
  import opened Dom
  import Cell

  /** The collaborators the session calls but does not define. */
  datatype Env<!S, !B> = Env(
    render: S -> HtmlToken<S>,
    asBareToken: HtmlToken<S> -> B,
    getDiffWith: (B, B) -> Diff,                  // new token first, stored token second
    asInnerHtml: HtmlToken<S> -> string,
    parse: string -> seq<Node>,                   // markup to the nodes it parses into
    getElementById: (Node, string) -> Option<Location>)

  /** The three slots: last rendered bare token, root component state, root element. */
  datatype Session<S, B> = Session(lastRenderedToken: Option<B>, rootComponent: Option<S>, rootElement: Option<Location>)

  datatype World<S, B> = World(session: Session<S, B>, doc: Node)

  function EmptySession<S, B>(): Session<S, B> {
    Session(None, None, None)
  }

  predicate IsElementAt(doc: Node, loc: Location) {
    NodeAt(doc, loc).Some? && NodeAt(doc, loc).value.Element?
  }

  /**
   * The host's lookup only ever answers with an element of the document, never with the
   * document node itself, so the element it finds has a parent.
   */
  predicate LookupYieldsElement<S, B>(env: Env<S, B>, doc: Node, divId: string) {
    env.getElementById(doc, divId).Some? ==>
      |env.getElementById(doc, divId).value| > 0 && IsElementAt(doc, env.getElementById(doc, divId).value)
  }

  /** The stored bare token is the bare form of what the stored component renders now. */
  ghost predicate InSync<S, B>(session: Session<S, B>, env: Env<S, B>) {
    session.rootComponent.Some? ==>
      session.lastRenderedToken == Some(env.asBareToken(env.render(session.rootComponent.value)))
  }

  /** A stored root element is an element of the live document below the document node. */
  predicate RootLive<S, B>(w: World<S, B>) {
    w.session.rootElement.Some? ==>
      |w.session.rootElement.value| > 0 && IsElementAt(w.doc, w.session.rootElement.value)
  }

  /**
   * Looks the element up by id; when there is one, renders the component into it and
   * stores the bare token, the component and the element. Otherwise only an error is
   * logged and nothing is stored.
   */
  function Mount<S, B>(w: World<S, B>, env: Env<S, B>, divId: string, component: S): (r: World<S, B>)
    requires LookupYieldsElement(env, w.doc, divId)
    ensures env.getElementById(w.doc, divId).None? ==> r == w
    ensures env.getElementById(w.doc, divId).Some? ==>
              && r.session.rootElement == env.getElementById(w.doc, divId)
              && r.session.rootComponent == Some(component)
              && InSync(r.session, env) && RootLive(r)
  {
    match env.getElementById(w.doc, divId)
    case None => w
    case Some(el) =>
      var token := env.render(component);
      var host := NodeAt(w.doc, el).value;
      var doc' := SetAt(w.doc, el, host.(children := env.parse(env.asInnerHtml(token))));
      SetAtFound(w.doc, el, host.(children := env.parse(env.asInnerHtml(token))));
      World(Session(Some(env.asBareToken(token)), Some(component), Some(el)), doc')
  }

  /** Mounting writes the markup of the initial render into the element and touches nothing outside it. */
  lemma MountWritesMarkup<S, B>(w: World<S, B>, env: Env<S, B>, divId: string, component: S)
    requires LookupYieldsElement(env, w.doc, divId) && env.getElementById(w.doc, divId).Some?
    ensures var el := env.getElementById(w.doc, divId).value;
            var r := Mount(w, env, divId, component);
            && SameElement(NodeAt(w.doc, el), NodeAt(r.doc, el))
            && NodeAt(r.doc, el).value.children == env.parse(env.asInnerHtml(env.render(component)))
            && (forall q :: Disjoint(q, el) ==> NodeAt(r.doc, q) == NodeAt(w.doc, q))
            && LineKept(w.doc, r.doc, el)
  {
    var el := env.getElementById(w.doc, divId).value;
    EditChildren(w.doc, el, env.parse(env.asInnerHtml(env.render(component))));
  }

  /** Why a click stopped part-way; the source panics in each case. */
  datatype ClickFailure = PathUnresolved(pathError: PathError) | PatchFailed(patchFailure: PatchFailure)

  datatype ClickResult<S, B> = ClickResult(world: World<S, B>, failure: Option<ClickFailure>)

  /** The click handler of the token at `path`, when that token is an element that has one. */
  function HandlerAt<S>(token: HtmlToken<S>, path: Path): (r: Option<(ClickEvent, S) -> S>)
    ensures r.Some? <==> FindTokenByPath(token, path).Some? && FindTokenByPath(token, path).value.DomElement?
                         && FindTokenByPath(token, path).value.onClick.Some?
    ensures r.Some? ==> r.value == FindTokenByPath(token, path).value.onClick.value
  {
    match FindTokenByPath(token, path)
    case Some(DomElement(_, _, Some(handler), _)) => Some(handler)
    case _ => None
  }

  /** The handler a click fires: none without a target, a mounted session, a path, or a handler there. */
  function FiredHandler<S, B>(w: World<S, B>, env: Env<S, B>, event: ClickEvent): (r: Option<(ClickEvent, S) -> S>)
    ensures event.target.None? || w.session.rootElement.None? || w.session.rootComponent.None? ==> r.None?
    ensures event.target.Some? && w.session.rootElement.Some? && w.session.rootComponent.Some? ==>
              var root, target := w.session.rootElement.value, event.target.value;
              var token := env.render(w.session.rootComponent.value);
              && (target == root ==> r == HandlerAt(token, []))
              && (IsPrefix(root, target) && target != root ==> r == HandlerAt(token, target[|root| + 1..]))
              && (!IsPrefix(root, target) ==> r.None?)
  {
    if event.target.None? || w.session.rootElement.None? || w.session.rootComponent.None? then None
    else match RootFirstPath(w.session.rootElement.value, event.target.value)
      case Failure(_) => None
      case Success(path) => HandlerAt(env.render(w.session.rootComponent.value), path)
  }

  /** The click has a target and a mounted root, but the target's path cannot be resolved. */
  predicate PathFails<S, B>(w: World<S, B>, event: ClickEvent) {
    && event.target.Some? && w.session.rootElement.Some?
    && RootFirstPath(w.session.rootElement.value, event.target.value).Failure?
  }

  /**
   * The handler the dispatch as written fires: the walk's leaf-first path is handed
   * unchanged to the root-first token descent.
   */
  function FiredHandlerAsWritten<S, B>(w: World<S, B>, env: Env<S, B>, event: ClickEvent): (r: Option<(ClickEvent, S) -> S>)
    ensures event.target.None? || w.session.rootElement.None? || w.session.rootComponent.None? ==> r.None?
    ensures r.Some? ==>
              var path := LeafFirstPath(w.session.rootElement.value, event.target.value);
              && path.Success?
              && r == HandlerAt(env.render(w.session.rootComponent.value), path.value)
    ensures event.target.Some? && w.session.rootElement.Some? && w.session.rootComponent.Some? ==>
              var path := LeafFirstPath(w.session.rootElement.value, event.target.value);
              && (path.Success? ==> r == HandlerAt(env.render(w.session.rootComponent.value), path.value))
              && (path.Failure? ==> r.None?)
  {
    if event.target.None? || w.session.rootElement.None? || w.session.rootComponent.None? then None
    else match LeafFirstPath(w.session.rootElement.value, event.target.value)
      case Failure(_) => None
      case Success(path) => HandlerAt(env.render(w.session.rootComponent.value), path)
  }

  /** The two dispatches agree on targets at most two levels below the mount root. */
  lemma AsWrittenAgreesWhenShallow<S, B>(w: World<S, B>, env: Env<S, B>, event: ClickEvent, i: nat, p: Path)
    requires w.session.rootElement.Some? && |p| <= 1
    requires event.target == Some(w.session.rootElement.value + [i] + p)
    ensures FiredHandlerAsWritten(w, env, event) == FiredHandler(w, env, event)
  {
    var root := w.session.rootElement.value;
    LeafFirstPathShallow(root, i, p);
    assert (root + [i] + p)[..|root|] == root;
    assert (root + [i] + p)[|root| + 1..] == p;
  }

  /**
   * A click on `b` in `ul` > [`li`[text, `b`], `li`[`i`]]: the dispatch as written fires
   * the handler of `i`, the model's click fires the handler of `b`.
   */
  lemma ClickAsWrittenMisroutes()
    ensures var onB: (ClickEvent, int) -> int := (e, s) => s + 1;
            var onI: (ClickEvent, int) -> int := (e, s) => s + 2;
            var top := DomElement("ul", map[], None, [
                         DomElement("li", map[], None, [TextNode("a"), DomElement("b", map[], Some(onB), [])]),
                         DomElement("li", map[], None, [DomElement("i", map[], Some(onI), [])])]);
            var doc := Element("body", map[], [Element("div", map[], [Element("ul", map[], [
                         Element("li", map[], [Text("a"), Element("b", map[], [])]),
                         Element("li", map[], [Element("i", map[], [])])])])]);
            var env: Env<int, int> := Env(s => top, t => 0, (x, y) => [], t => "", m => [], (n, id) => None);
            var w := World(Session(Some(0), Some(0), Some([0])), doc);
            var event := ClickEvent(Some([0, 0, 0, 1]));
            && RootLive(w)
            && Mirrors(doc.children[0].children[0], top)
            && FiredHandlerAsWritten(w, env, event).Some? && FiredHandlerAsWritten(w, env, event).value(event, 0) == 2
            && FiredHandler(w, env, event).Some? && FiredHandler(w, env, event).value(event, 0) == 1
            && Click(w, env, event).world.session.rootComponent == Some(1)
  {
    LeafFirstPathMisroutes();
  }

  /**
   * One click. Outside a dispatch cycle the root element and component are taken out of
   * their slots; a panic part-way leaves the root element slot empty, as the take/put-back
   * cell does.
   */
  function Click<S, B>(w: World<S, B>, env: Env<S, B>, event: ClickEvent): (r: ClickResult<S, B>)
    requires RootLive(w)
    ensures event.target.None? || w.session.rootElement.None? ==> r == ClickResult(w, None)
    ensures FiredHandler(w, env, event).None? ==>
              && r.world.session.rootComponent == w.session.rootComponent
              && r.world.session.lastRenderedToken == w.session.lastRenderedToken
              && r.world.doc == w.doc
    ensures FiredHandler(w, env, event).Some? ==>
              var next := FiredHandler(w, env, event).value(event, w.session.rootComponent.value);
              && r.world.session.rootComponent == Some(next)
              && r.world.session.lastRenderedToken == Some(env.asBareToken(env.render(next)))
    ensures FiredHandler(w, env, event).Some? && w.session.lastRenderedToken.Some? ==>
              var next := FiredHandler(w, env, event).value(event, w.session.rootComponent.value);
              var root := w.session.rootElement.value;
              var diff := env.getDiffWith(env.asBareToken(env.render(next)), w.session.lastRenderedToken.value);
              var patched := ApplyDiff(NodeAt(w.doc, root).value, diff, env.parse);
              && (patched.Success? ==> r.failure.None? && NodeAt(r.world.doc, root) == Some(patched.value))
              && (patched.Failure? ==> r.failure == Some(PatchFailed(patched.error))
                                       && NodeAt(r.world.doc, root) == Some(patched.error.partial))
    ensures FiredHandler(w, env, event).None? && !PathFails(w, event) ==> r == ClickResult(w, None)
    ensures w.session.lastRenderedToken.None? ==> r.world.doc == w.doc
    ensures FiredHandler(w, env, event).Some? && w.session.lastRenderedToken.None? ==> r.failure.None?
    ensures PathFails(w, event) ==>
              r.failure == Some(PathUnresolved(RootFirstPath(w.session.rootElement.value, event.target.value).error))
    ensures r.failure.None? ==> r.world.session.rootElement == w.session.rootElement
    ensures r.failure.Some? ==> r.world.session.rootElement.None?
    ensures w.session.rootElement.Some? ==>
              forall q :: Disjoint(q, w.session.rootElement.value) ==> NodeAt(r.world.doc, q) == NodeAt(w.doc, q)
    ensures InSync(w.session, env) ==> InSync(r.world.session, env)
    ensures RootLive(r.world)
  {
    if event.target.None? then ClickResult(w, None)
    else match w.session.rootElement
      case None => ClickResult(w, None)
      case Some(root) =>
        match RootFirstPath(root, event.target.value)
        case Failure(e) =>
          ClickResult(w.(session := w.session.(rootElement := None)), Some(PathUnresolved(e)))
        case Success(path) =>
          match w.session.rootComponent
          case None => ClickResult(w, None)
          case Some(state) =>
            match HandlerAt(env.render(state), path)
            case None => ClickResult(w, None)
            case Some(handler) =>
              var next := handler(event, state);
              var newToken := env.asBareToken(env.render(next));
              var session := Session(Some(newToken), Some(next), Some(root));
              match w.session.lastRenderedToken
              case None => ClickResult(World(session, w.doc), None)
              case Some(oldToken) =>
                var (doc, failure) := PatchRootElement(w.doc, root, env.getDiffWith(newToken, oldToken), env.parse);
                match failure
                case None => ClickResult(World(session, doc), None)
                case Some(f) => ClickResult(World(session.(rootElement := None), doc), Some(PatchFailed(f)))
  }

  /**
   * `apply_diff` on the root element, seen as a change of the whole document: the root
   * element stays an element, receives the patched (or, on failure, partly patched)
   * subtree, and nothing outside it changes.
   */
  function PatchRootElement(doc: Node, root: Location, diff: Diff, parse: string -> seq<Node>): (r: (Node, Option<PatchFailure>))
    requires IsElementAt(doc, root)
    ensures IsElementAt(r.0, root)
    ensures forall q :: Disjoint(q, root) ==> NodeAt(r.0, q) == NodeAt(doc, q)
    ensures |root| > 0 ==> LineKept(doc, r.0, root[..|root| - 1])
    ensures ApplyDiff(NodeAt(doc, root).value, diff, parse).Success? ==>
              r.1.None? && NodeAt(r.0, root) == Some(ApplyDiff(NodeAt(doc, root).value, diff, parse).value)
    ensures ApplyDiff(NodeAt(doc, root).value, diff, parse).Failure? ==>
              r.1 == Some(ApplyDiff(NodeAt(doc, root).value, diff, parse).error)
              && NodeAt(r.0, root) == Some(r.1.value.partial)
  {
    var subtree := match ApplyDiff(NodeAt(doc, root).value, diff, parse)
      case Success(patched) => patched
      case Failure(f) => f.partial;
    SetAtEffect(doc, root, subtree);
    assert |root| > 0 ==> forall q :: IsPrefix(q, root[..|root| - 1]) ==> IsPrefix(q, root) && |q| < |root|;
    match ApplyDiff(NodeAt(doc, root).value, diff, parse)
    case Success(_) => (SetAt(doc, root, subtree), None)
    case Failure(f) => (SetAt(doc, root, subtree), Some(f))
  }

  /**
   * With the corrected root-first path, a click on a live node inside the mount root
   * fires the handler of the very token that node renders.
   */
  lemma ClickRoutesToClickedElement<S, B>(w: World<S, B>, env: Env<S, B>, event: ClickEvent, i: nat, p: Path)
    requires w.session.rootElement.Some? && w.session.rootComponent.Some?
    requires event.target == Some(w.session.rootElement.value + [i] + p)
    requires ValidLocation(w.doc, event.target.value)
    requires NodeAt(w.doc, w.session.rootElement.value + [i]).Some?
    requires Mirrors(NodeAt(w.doc, w.session.rootElement.value + [i]).value, env.render(w.session.rootComponent.value))
    ensures var clicked := FindTokenByPath(env.render(w.session.rootComponent.value), p);
            && clicked.Some?
            && Mirrors(NodeAt(w.doc, event.target.value).value, clicked.value)
            && FiredHandler(w, env, event) == HandlerAt(env.render(w.session.rootComponent.value), p)
  {
    var root := w.session.rootElement.value;
    var target := event.target.value;
    assert target == (root + [i]) + p;
    assert IsPrefix(root, target) && target[|root| + 1..] == p by {
      assert target[..|root|] == root;
    }
    NodeAtAppend(w.doc, root + [i], p);
    MirrorsAgree(NodeAt(w.doc, root + [i]).value, env.render(w.session.rootComponent.value), p);
  }

  /** A click keeps every node above the mount root as it was. */
  lemma ClickKeepsLineAboveRoot<S, B>(w: World<S, B>, env: Env<S, B>, event: ClickEvent)
    requires RootLive(w) && w.session.rootElement.Some?
    ensures var root := w.session.rootElement.value;
            LineKept(w.doc, Click(w, env, event).world.doc, root[..|root| - 1])
  {
    var root := w.session.rootElement.value;
    var r := Click(w, env, event);
    if r.world.doc == w.doc {
      LineAboveLive(w.doc, root);
    }
  }

  /**
   * The root element slot after a click is what the take/put-back cell leaves: the
   * element is put back unless the closure panicked.
   */
  lemma ClickRootSlotIsCellRun<S, B>(w: World<S, B>, env: Env<S, B>, event: ClickEvent)
    requires RootLive(w)
    ensures var r := Click(w, env, event);
            var failed := r.failure.Some?;
            var run := Cell.WithInnerValue(w.session.rootElement,
                         (seen: Option<Location>, root: Location) => if failed then Cell.Panicked else Cell.Returned(root));
            && r.world.session.rootElement == run.after
            && run.panicked == failed
  {
  }

  /**
   * After a click that failed part-way the root element slot is empty, so every later
   * click is ignored.
   */
  lemma ClickAfterFailureIsInert<S, B>(w: World<S, B>, env: Env<S, B>, first: ClickEvent, later: ClickEvent)
    requires RootLive(w) && Click(w, env, first).failure.Some?
    ensures var after := Click(w, env, first).world;
            Click(after, env, later) == ClickResult(after, None)
  {
  }
}

=== FILE: tree.dfy ===
/**
 * The live document as an immutable tree.
 *
 * A live node is an element (tag, attributes, ordered children) or a text node; text
 * nodes count as children like elements do. A live node's identity is its Location:
 * the child indices leading to it from the document node. With that convention
 * `parent_node` drops the last index and `is_same_node` is equality of locations.
 */
module Tree {
  import opened Wrappers

  /** A sequence of child indices, consumed from the first (outermost) index on. */
  type Path = seq<nat>

  /** The absolute position of a live node, from the document node down. */
  type Location = seq<nat>

  datatype Node =
    | Element(tag: string, attrs: map<string, string>, children: seq<Node>)
    | Text(text: string)

  /** `child_nodes().get(k)`: a text node has no children. */
  function ChildAt(n: Node, k: nat): (r: Option<Node>)
    ensures r.Some? <==> n.Element? && k < |n.children|
    ensures r.Some? ==> r.value == n.children[k]
  {
    match n
    case Element(_, _, kids) => if k < |kids| then Some(kids[k]) else None
    case Text(_) => None
  }

  /** Root-first descent by child index; the reference meaning of a path. */
  function NodeAt(n: Node, p: Path): Option<Node>
    decreases |p|
  {
    if |p| == 0 then Some(n)
    else match ChildAt(n, p[0])
      case None => None
      case Some(c) => NodeAt(c, p[1..])
  }

  predicate ValidLocation(doc: Node, loc: Location) {
    NodeAt(doc, loc).Some?
  }

  /** Number of live children of the node at `loc` (zero for a text node or no node). */
  function ChildCount(doc: Node, loc: Location): nat {
    match NodeAt(doc, loc)
    case Some(Element(_, _, kids)) => |kids|
    case _ => 0
  }

  predicate IsPrefix(p: Path, q: Path) {
    |p| <= |q| && q[..|p|] == p
  }

  /** Two positions of which neither lies on or under the other. */
  predicate Disjoint(p: Path, q: Path) {
    !IsPrefix(p, q) && !IsPrefix(q, p)
  }

  /** `child` is the `j`-th child of `parent`, by position. */
  predicate IsChild(child: Location, parent: Location, j: nat) {
    child == parent + [j]
  }

  /** The tree with the node at `p` replaced by `x`; unchanged when `p` resolves to nothing. */
  function SetAt(n: Node, p: Path, x: Node): (r: Node)
    ensures |p| > 0 ==> (r.Element? <==> n.Element?)
    decreases |p|
  {
    if |p| == 0 then x
    else match n
      case Text(_) => n
      case Element(tag, attrs, kids) =>
        if p[0] < |kids| then Element(tag, attrs, kids[p[0] := SetAt(kids[p[0]], p[1..], x)])
        else n
  }

  /** `before` and `after` are the same element, up to the listed children. */
  predicate SameElement(before: Option<Node>, after: Option<Node>) {
    && before.Some? && after.Some? && before.value.Element? && after.value.Element?
    && before.value.tag == after.value.tag && before.value.attrs == after.value.attrs
  }

  /** Every node from the top of `n` down to `p` is the same element in `n'`. */
  ghost predicate LineKept(n: Node, n': Node, p: Path) {
    forall q :: IsPrefix(q, p) ==> SameElement(NodeAt(n, q), NodeAt(n', q))
  }

  /** Path reversal: the first index of one is the last index of the other. */
  function Reverse(p: Path): (r: Path)
    ensures |r| == |p|
    ensures forall i :: 0 <= i < |p| ==> r[i] == p[|p| - 1 - i]
  {
    if |p| == 0 then [] else Reverse(p[1..]) + [p[0]]
  }

  lemma ReverseReverse(p: Path)
    ensures Reverse(Reverse(p)) == p
  {
    assert forall i :: 0 <= i < |p| ==> Reverse(Reverse(p))[i] == p[i];
  }

  /** Resolving `p + q` is resolving `p`, then `q` from where `p` led. */
  lemma {:induction false} NodeAtAppend(n: Node, p: Path, q: Path)
    ensures NodeAt(n, p + q) == match NodeAt(n, p) case None => None case Some(m) => NodeAt(m, q)
  {
    if |p| == 0 {
      assert p + q == q;
    } else {
      assert (p + q)[0] == p[0];
      assert (p + q)[1..] == p[1..] + q;
      match ChildAt(n, p[0])
      case None =>
      case Some(c) => NodeAtAppend(c, p[1..], q);
    }
  }

  /** Resolving one more index is taking that child of the node already reached. */
  lemma NodeAtChild(n: Node, p: Path, k: nat)
    ensures NodeAt(n, p + [k]) == match NodeAt(n, p) case None => None case Some(m) => ChildAt(m, k)
  {
    NodeAtAppend(n, p, [k]);
    match NodeAt(n, p)
    case None =>
    case Some(m) => assert [k][1..] == [];
  }

  /** Every ancestor of a live node is live. */
  lemma NodeAtPrefix(n: Node, p: Path, q: Path)
    requires IsPrefix(p, q) && NodeAt(n, q).Some?
    ensures NodeAt(n, p).Some?
  {
    assert q == p + q[|p|..];
    NodeAtAppend(n, p, q[|p|..]);
  }

  /** After `SetAt`, the new node sits at `p`. */
  lemma {:induction false} SetAtFound(n: Node, p: Path, x: Node)
    requires NodeAt(n, p).Some?
    ensures NodeAt(SetAt(n, p, x), p) == Some(x)
    decreases |p|
  {
    if |p| > 0 {
      SetAtFound(n.children[p[0]], p[1..], x);
    }
  }

  /** `SetAt` leaves every position off the line through `p` as it was. */
  lemma {:induction false} SetAtDisjoint(n: Node, p: Path, x: Node, q: Path)
    requires Disjoint(p, q)
    ensures NodeAt(SetAt(n, p, x), q) == NodeAt(n, q)
    decreases |p|
  {
    assert IsPrefix([], q) && IsPrefix([], p);
    if n.Element? && p[0] < |n.children| && p[0] == q[0] {
      PrefixTail(p, q);
      PrefixTail(q, p);
      SetAtDisjoint(n.children[p[0]], p[1..], x, q[1..]);
    }
  }

  /** Two paths with the same first index are prefix-related exactly when their tails are. */
  lemma PrefixTail(p: Path, q: Path)
    requires |p| > 0 && |q| > 0 && p[0] == q[0]
    ensures IsPrefix(p[1..], q[1..]) ==> IsPrefix(p, q)
  {
    if IsPrefix(p[1..], q[1..]) {
      assert q[..|p|] == [q[0]] + q[1..][..|p| - 1];
      assert p == [p[0]] + p[1..];
    }
  }

  /** Every node strictly above the written position keeps its tag and attributes. */
  lemma {:induction false} SetAtAncestor(n: Node, p: Path, x: Node, q: Path)
    requires NodeAt(n, p).Some? && IsPrefix(q, p) && |q| < |p|
    ensures SameElement(NodeAt(n, q), NodeAt(SetAt(n, p, x), q))
    decreases |p|
  {
    if |q| > 0 {
      assert q[0] == p[0];
      assert q[1..] == p[1..][..|q| - 1];
      SetAtAncestor(n.children[p[0]], p[1..], x, q[1..]);
    }
  }

  /** The nodes above a live node are elements, so a document keeps that line unchanged. */
  lemma LineAboveLive(n: Node, p: Path)
    requires NodeAt(n, p).Some? && |p| > 0
    ensures LineKept(n, n, p[..|p| - 1])
  {
    forall q | IsPrefix(q, p[..|p| - 1])
      ensures SameElement(NodeAt(n, q), NodeAt(n, q))
    {
      assert p == q + p[|q|..];
      NodeAtAppend(n, q, p[|q|..]);
    }
  }

  /**
   * Writing `x` at a live position puts it there, leaves every position off its line
   * alone and keeps the tag and attributes of every node above it.
   */
  lemma SetAtEffect(n: Node, p: Path, x: Node)
    requires NodeAt(n, p).Some?
    ensures NodeAt(SetAt(n, p, x), p) == Some(x)
    ensures forall q :: Disjoint(q, p) ==> NodeAt(SetAt(n, p, x), q) == NodeAt(n, q)
    ensures forall q :: IsPrefix(q, p) && |q| < |p| ==> SameElement(NodeAt(n, q), NodeAt(SetAt(n, p, x), q))
  {
    SetAtFound(n, p, x);
    forall q | IsPrefix(q, p) && |q| < |p|
      ensures SameElement(NodeAt(n, q), NodeAt(SetAt(n, p, x), q))
    {
      SetAtAncestor(n, p, x, q);
    }
    forall q | Disjoint(q, p)
      ensures NodeAt(SetAt(n, p, x), q) == NodeAt(n, q)
    {
      SetAtDisjoint(n, p, x, q);
    }
  }
}

=== FILE: util.dfy ===
/**
 * The take/put-back cell behind the session's thread-local slots.
 *
 * `WithInnerValue` takes the value out of the cell, leaving it empty, runs the
 * callback on the value, and puts the (possibly changed) value back. The callback is
 * told what a read of the same cell would see while it runs, so re-entrant access is
 * part of the model; a panicking callback never reaches the put-back.
 */
module Cell {
  import opened Wrappers

  /** The callback either returns, leaving the value it was lent in a new state, or panics. */
  datatype CallbackOutcome<T> = Returned(value: T) | Panicked

  /** One call of the callback: what the cell held during the call, and the value lent to it. */
  datatype Invocation<T> = Invocation(cellDuringCall: Option<T>, argument: T)

  /** A run of `WithInnerValue`: the cell's final content and the callback calls it made. */
  datatype CellRun<T> = CellRun(after: Option<T>, invocations: seq<Invocation<T>>, panicked: bool)

  function WithInnerValue<T>(cell: Option<T>, callback: (Option<T>, T) -> CallbackOutcome<T>): (r: CellRun<T>)
    ensures |r.invocations| == if cell.Some? then 1 else 0
    ensures forall call <- r.invocations :: call.cellDuringCall == None && cell == Some(call.argument)
    ensures cell.None? ==> r.after == None && !r.panicked
    ensures r.panicked <==> cell.Some? && callback(None, cell.value).Panicked?
    ensures cell.Some? && !r.panicked ==> r.after == Some(callback(None, cell.value).value)
    ensures r.panicked ==> r.after == None
  {
    match cell
    case None => CellRun(None, [], false)
    case Some(inner) =>
      var taken: Option<T> := None;
      var call := Invocation(taken, inner);
      match callback(taken, inner)
      case Returned(v) => CellRun(Some(v), [call], false)
      case Panicked => CellRun(taken, [call], true)
  }

  /** A nested `WithInnerValue` on the same cell, run from inside the callback, finds it empty and runs nothing. */
  lemma ReentrantRunIsInert<T>(cell: Option<T>, outer: (Option<T>, T) -> CallbackOutcome<T>,
                               inner: (Option<T>, T) -> CallbackOutcome<T>)
    requires cell.Some?
    ensures var seen := WithInnerValue(cell, outer).invocations[0].cellDuringCall;
            && WithInnerValue(seen, inner).invocations == []
            && WithInnerValue(seen, inner).after == None
  {
  }
}

=== FILE: wrappers.dfy ===
/** Option and Result, the failure-carrying shapes used throughout the model. */
module Wrappers {

  datatype Option<+T> = None | Some(value: T)

  datatype Result<+T, +E> = Success(value: T) | Failure(error: E)
}
